=== FILE: README.md ===
# myshell: command dispatch and descriptor wiring

A Dafny model of the decision logic of `myshell.c`, a small UNIX shell. Each
line the tokenizer returns is a sequence of tokens. The shell skips an empty
line, exits with status 0 on `exit`, runs a one-token line as a plain command,
and otherwise classifies the line as an input redirection (`<`), an output
redirection (`>`), a two-stage pipe (`|`) or a plain command, in that priority
order. Each handler then derives the argument vectors and the operand from the
line, and rewires standard input or output with the idiom
`close(k); dup(fd); close(fd)`.

The model is made of pure functions over `seq<string>` and over a descriptor
table `map<nat, Obj>`:

- `Tokens`: the line, the operator tokens, and the position search each handler runs.
- `Classifier`: the one-pass operator scan of `mult_cmd` and its if/else-if chain.
- `Argv`: the vectors and the filename each handler derives, as pure functions.
- `CArgv`: the C view of the line, a NULL-terminated pointer array that the handlers
  overwrite in place. It is proved to yield exactly the vectors of `Argv`.
- `Descriptors`: `close`, `dup`, `open` and `pipe` on a descriptor table. New
  descriptors are allocated lowest-first. POSIX.1-2017 (IEEE Std 1003.1)
  requires this of `dup` and `open`, and requires `pipe` to take the two lowest
  free descriptors. The model gives the read end the lower one. The module also holds the redirection
  idiom and the two pipe-branch sequences.
- `Shell`: `mult_cmd`, `process_cmd`, one iteration of `main`'s loop, and the loop
  itself over a stream of lines.
- `Launch`: which programs each command execs, and the descriptor table each inherits.

Input redirection does not quite match the comment above `in_cmd`
(myshell.c:16-19). The comment says the routine feeds the file on the right
into the command on the left. Lines 28-29 instead move the filename into the
place of `<`, so the filename stays an argument: `cat < in.txt` executes
`cat in.txt`. The model follows the code.

## Model

| member | source | states |
|---|---|---|
| Tokens.FindOperator | myshell.c:27 | The position search stops inside the line at the operator, and no earlier token is that operator. It is the first occurrence. |
| Classifier.Classify | myshell.c:158-183 | The shape is InputRedirect iff `<` occurs. It is OutputRedirect iff `>` occurs and `<` does not, Pipe iff only `|` occurs, and Plain iff no operator occurs. |
| Classifier.ScanOperators | myshell.c:158-171 | After the single scan, each flag is set exactly when its operator occurs somewhere in the line. |
| Classifier.ClassifyByScan | myshell.c:153-183 | Scanning and then branching on the flags gives the same shape as the membership-based classification. |
| Classifier.ClassifySeesOnlyOperators | myshell.c:158-180 | Two lines that agree on which operators occur get the same shape. |
| Argv.InputArgv | myshell.c:27-29 | The executed vector keeps the tokens before the first `<` unchanged. It then holds the filename token if there is one, and nothing after it. |
| Argv.OutputArgv | myshell.c:66-67 | The vector is the prefix of the line ending just before the first `>`, and it contains no `>`. |
| Argv.OutputFile | myshell.c:66-68 | The filename is the token right after the first `>`. It is None exactly when the first `>` is the last token. |
| Argv.PipeSplit | myshell.c:103-104 | Left, then `|`, then right rebuilds the line, and the left side holds no `|`. |
| Argv.PipeSplitUnique | myshell.c:103-104 | Only one split rebuilds the line with a `|`-free left side, so the split at the first `|` is that one. |
| Argv.PipeSidesHaveNoRedirection | myshell.c:175-180 | When a line is classified Pipe, neither side contains `<` or `>`. |
| Argv.OutputShapeHasNoInputOperator | myshell.c:175-178 | An output-redirect line contains no `<`, so neither its vector nor its filename is `<`. |
| CArgv.ArgvFrom | myshell.c:49 | What `execvp` reads from a position is the maximal run of non-NULL pointers there, ended by a NULL. |
| CArgv.InCmdEditReadsInputArgv | myshell.c:27-29 | After `args[pos] = args[pos+1]; args[pos+1] = NULL`, `execvp` reads exactly `InputArgv`. |
| CArgv.OutCmdEditReadsOutputArgv | myshell.c:66-68 | After `args[pos] = NULL`, `execvp` reads exactly `OutputArgv`, and `args[pos+1]` is `OutputFile`, which is NULL when `>` is last. |
| CArgv.PipeCmdEditReadsSides | myshell.c:103-142 | After `args[pos] = NULL`, the vectors read at `args` and at `&args[pos+1]` are the two sides of `PipeSplit`. |
| Descriptors.LowestFree | myshell.c:46 | The allocated descriptor is free, and every descriptor below it is open. |
| Descriptors.Dup | myshell.c:46 | On an open descriptor, the lowest free slot is bound to the same object and nothing else changes. On a closed one, it returns -1 and the table is unchanged. |
| Descriptors.Open | myshell.c:82 | A successful open binds the lowest free slot and nothing else. A failed one returns -1 and leaves the table unchanged. |
| Descriptors.Pipe | myshell.c:116 | The read and write ends go to two distinct previously free slots. The read end gets the lowest free slot and the write end the next lowest. |
| Descriptors.RedirectRebinds | myshell.c:45-47 | If slot k and every slot below it are open and fd is another open descriptor, then close(k); dup(fd); close(fd) binds k to fd's object, closes fd, and changes nothing else. |
| Descriptors.RedirectWithLowerHoleMisses | myshell.c:84-86 | On an arbitrary table, if some slot below the target slot is free, the three calls bind the source's object to the lowest free slot and leave the target slot closed. So the "lower slots open" premise of the rebinding property is needed in the abstract. The handlers never reach this case, because the `open` or `pipe` just before the idiom has already taken the lowest free slot. |
| Descriptors.RedirectFailedOpenClosesSlot | myshell.c:82-86 | After a failed open (fd -1), the idiom only closes the standard slot. |
| Descriptors.WriterBranchWiring | myshell.c:124-127 | In the writing stage, standard output is the channel's write end, both original pipe descriptors are closed, and no other end of the channel is open. |
| Descriptors.ReaderBranchWiring | myshell.c:133-136 | In the reading stage, standard input is the channel's read end, both original pipe descriptors are closed, and no other end of the channel is open. |
| Shell.MultCmd | myshell.c:153-200 | Exactly one handler is chosen, by operator priority. A plain line runs whole. The input command runs the tokens before the first `<`, then the filename token if present, and nothing after it. The output vector is the line before the first `>`, followed in the line by `>` and the filename. It holds no `<` or `>`, but a `|` before the `>` is passed to the program as an argument. The pipe sides rebuild the line around the first `|`. The left side holds no operator, and the right side no `<` or `>`, though it may hold a further `|`. |
| Shell.LowerOperatorsPassAsArguments | myshell.c:175-180 | `a \| b > f` runs `a \| b` with output to `f`, so `\|` reaches the program as an argument. `a \| b \| c` pipes `a` into `b \| c`, so the second `\|` is an argument of `b`. |
| Shell.ProcessCmd | myshell.c:231-242 | A one-token line runs as a plain command. Longer lines go to the classifier. |
| Shell.Dispatch | myshell.c:249-262 | An empty line does nothing. A line starting with `exit` ends the shell with status 0. Every other line runs the command `process_cmd` builds. |
| Shell.ExitIgnoresTrailingTokens | myshell.c:256-257 | `exit` followed by any tokens still ends the shell with status 0. |
| Shell.LoneOperatorRunsAsProgram | myshell.c:234-241 | A line holding only `<`, `>` or `|` is executed as a program name, although the classifier would have routed it elsewhere. |
| Shell.PlainLinesRunWhole | myshell.c:183-198 | A line with no operator runs its whole token sequence as one plain command, whatever its length. |
| Shell.Session | myshell.c:252-261 | Over a stream of lines, the shell exits iff some line starts with `exit`, always with status 0, and runs at most one command per line. |
| Shell.SessionStopsAtExit | myshell.c:252-261 | The non-empty lines before the first `exit` line run in order. The shell then exits with 0 and reads nothing after that line. |
| Shell.SessionWithoutExit | myshell.c:252-261 | A stream with no `exit` line runs every non-empty line in order and never exits. |
| Launch.Launch | myshell.c:21-224 | Each command execs one program, or two for a pipe (left, then right), with the vectors its handler derived. A plain command (`sngl_cmd`, or the plain branch of `mult_cmd`) runs with the shell's descriptor table unchanged. |
| Launch.OpenThenRedirect | myshell.c:82-86 | Opening an object and redirecting a standard slot onto it changes only that slot, which is then bound to the object. |
| Launch.InputLaunchWiring | myshell.c:39-49 | The program has the opened object on standard input, or standard input closed if the open failed. Every other slot is the shell's. |
| Launch.InputLaunchWithStdinClosed | myshell.c:43-47 | If standard input is already closed, the open takes slot 0, and `close(0)` then closes that same file. The `dup` fails, so the program runs with standard input closed and the shell's table otherwise unchanged. |
| Launch.OutputLaunchWiring | myshell.c:78-88 | When the open succeeds, the program has the named file on standard output, even if standard input was closed: the open then takes slot 0 and `dup` still lands on slot 1. With no filename, or when the system refuses the open, standard output is closed. Every other slot is the shell's. |
| Launch.PipelineLaunchWiring | myshell.c:114-144 | The left program writes into the channel and the right program reads from it. Each holds exactly one end, on its standard slot. |
| Launch.EchoIntoFile | myshell.c:59-91 | `echo hi > out.txt` runs `echo hi` with standard output on `out.txt` and every other descriptor inherited. |
| Launch.CatFromFile | myshell.c:21-51 | `cat < in.txt` runs `cat in.txt` with every other descriptor inherited. Standard input is on the opened object when `in_cmd`'s open succeeds, and closed when it fails. |

## Left out

- Process creation (`fork`), reaping (`wait`) and program replacement (`execvp`) are OS effects. A command is modelled as the programs it execs and the descriptor tables they inherit. The fatal `exit(1)` on fork failure is not modelled.
- Process timing in `pipe_cmd` is not modelled. The shell's child is itself the left stage: the `pid2 > 0` branch at lines 123-131 execs the left program. The right program runs in a grandchild that nobody waits for. The shell's `wait(0)` at line 112 therefore waits only for the left program, and the prompt can return while the right program is still running.
- When `execvp` fails, the child prints a message and falls back into `main`'s loop as a second shell. Neither the message nor the fall-through is modelled.
- The `open` flags, permission bits and file creation are filesystem effects. `out_cmd` passes `O_CREAT|O_WRONLY` without truncation. Whether an `open` succeeds is a parameter of `Launch`; a refused open is modelled the same way as the NULL-filename case.
- `in_cmd` opens an uninitialised `filename` pointer (lines 24 and 43), so the object it opens is a parameter of `Launch`, with None for a failed `open`.
- The `getline` tokenizer is external (declared at line 14), so lines are given as token sequences. The prompt printed at line 253 is output only.
- Descriptors.Dup: does not model EMFILE, because the table is unbounded and `dup` never fails for lack of slots.
- Descriptors.Pipe: assumes the read end gets the lower of the two descriptors, which POSIX.1-2017 leaves open. It also does not model a failing `pipe` call, whose return value the code ignores. The call always succeeds here.
- An empty vector is modelled as empty, but the outcome of running it is not. That happens when `>` or `|` is the first token of a line of two or more, or when `|` is the last. `> f` gives an empty output vector. `| wc` gives an empty left vector. A trailing `|` gives an empty right vector. The C code then calls `execvp(NULL, ...)` (lines 88, 129 and 142).

=== FILE: argv.dfy ===
/**
 The argument vectors and operands each handler derives from a line, as pure
 functions of the token sequence. A missing operand (the operator is the last
 token, so C reads the NULL terminator) is `None`.
 */
module Argv {
  import opened Wrappers
  import opened Tokens
  import opened Classifier

  /**
   `in_cmd`: the token after the first `<` is moved into the operator's place
   and the vector ends right after it. The filename therefore stays an argument.
   */
  function InputArgv(line: Line): (argv: Line)
    requires InOp in line
    ensures var p := IndexOf(line, InOp);
      && p <= |argv| <= p + 1
      && argv[..p] == line[..p]
      && InOp !in argv[..p]
      && (|argv| == p + 1 <==> p + 1 < |line|)
      && (p + 1 < |line| ==> argv[p] == line[p + 1])
  {
    var p := IndexOf(line, InOp);
    if p + 1 < |line| then line[..p] + [line[p + 1]] else line[..p]
  }

  /** `out_cmd`: the vector is everything before the first `>`. */
  function OutputArgv(line: Line): (argv: Line)
    requires OutOp in line
    ensures |argv| < |line| && argv == line[..|argv|]
    ensures line[|argv|] == OutOp
    ensures OutOp !in argv
  {
    line[..IndexOf(line, OutOp)]
  }

  /** `out_cmd`: the filename is the token after the first `>`, if there is one. */
  function OutputFile(line: Line): (file: Option<Token>)
    requires OutOp in line
    ensures file.Some? <==> |OutputArgv(line)| + 1 < |line|
    ensures file.Some? ==> file.value == line[|OutputArgv(line)| + 1]
  {
    var p := IndexOf(line, OutOp);
    if p + 1 < |line| then Some(line[p + 1]) else None
  }

  /** `pipe_cmd`: the tokens before the first `|` and the tokens after it. */
  function PipeSplit(line: Line): (sides: (Line, Line))
    requires PipeOp in line
    ensures sides.0 + [PipeOp] + sides.1 == line
    ensures PipeOp !in sides.0
  {
    var p := IndexOf(line, PipeOp);
    assert line == line[..p] + [PipeOp] + line[p + 1..];
    (line[..p], line[p + 1..])
  }

  /** The split is the only one that puts the operator back and leaves no `|` on the left. */
  lemma PipeSplitUnique(line: Line, left: Line, right: Line)
    requires left + [PipeOp] + right == line
    requires PipeOp !in left
    ensures PipeOp in line
    ensures PipeSplit(line) == (left, right)
  {
    assert line[|left|] == PipeOp;
    assert line[..|left|] == left;
    IndexOfIsFirst(line, PipeOp, |left|);
    assert line[|left| + 1..] == right;
  }

  /** A pipe line has no redirection operator on either side, by the classifier's priority. */
  lemma PipeSidesHaveNoRedirection(line: Line)
    requires Classify(line) == Pipe
    ensures PipeOp in line
    ensures var (left, right) := PipeSplit(line);
      && InOp !in left && OutOp !in left
      && InOp !in right && OutOp !in right
  {
  }

  /** An output-redirect line has no `<` at all, so neither the vector nor the filename is one. */
  lemma OutputShapeHasNoInputOperator(line: Line)
    requires Classify(line) == OutputRedirect
    ensures OutOp in line && InOp !in line
    ensures InOp !in OutputArgv(line)
    ensures OutputFile(line) != Some(InOp)
  {
  }
}

=== FILE: cargv.dfy ===
/**
 The C view of a line: a NULL-terminated array of string pointers, which the
 handlers overwrite in place before handing (a suffix of) it to `execvp`.
 The lemmas here show that what `execvp` reads after each in-place edit is
 exactly the vector the pure functions of `Argv` derive.
 */
module CArgv {
  import opened Wrappers
  import opened Tokens
  import opened Argv

  type CArray = seq<Option<Token>>

  /** The array the tokenizer returns: one pointer per token, then NULL. */
  function ToCArray(line: Line): (a: CArray)
    ensures |a| == |line| + 1 && a[|line|] == None
    ensures forall i :: 0 <= i < |line| ==> a[i] == Some(line[i])
  {
    seq(|line| + 1, i requires 0 <= i <= |line| => if i < |line| then Some(line[i]) else None)
  }

  /** The vector `execvp` reads from `&a[start]`: the strings up to the first NULL. */
  function ArgvFrom(a: CArray, start: nat): (argv: Line)
    requires start < |a| && a[|a| - 1] == None
    ensures start + |argv| < |a| && a[start + |argv|] == None
    ensures forall i :: 0 <= i < |argv| ==> a[start + i] == Some(argv[i])
    decreases |a| - start
  {
    if a[start].None? then []
    else [a[start].value] + ArgvFrom(a, start + 1)
  }

  /** A run of non-NULL pointers ended by a NULL is exactly what `ArgvFrom` reads. */
  lemma {:induction false} ArgvFromIsRun(a: CArray, start: nat, argv: Line)
    requires start < |a| && a[|a| - 1] == None
    requires start + |argv| < |a| && a[start + |argv|] == None
    requires forall i :: 0 <= i < |argv| ==> a[start + i] == Some(argv[i])
    ensures ArgvFrom(a, start) == argv
    decreases |a| - start
  {
    if |argv| > 0 {
      assert a[start + 0] == Some(argv[0]);
      forall i | 0 <= i < |argv[1..]|
        ensures a[start + 1 + i] == Some(argv[1..][i])
      {
        assert a[start + (1 + i)] == Some(argv[1 + i]);
      }
      ArgvFromIsRun(a, start + 1, argv[1..]);
    }
  }

  /** Lines 28-29: `args[pos] = args[pos + 1]; args[pos + 1] = NULL`. */
  function InCmdEdit(a: CArray, pos: nat): CArray
    requires pos + 1 < |a|
  {
    a[pos := a[pos + 1]][pos + 1 := None]
  }

  /** Lines 67 and 104: `args[pos] = NULL`. */
  function Terminate(a: CArray, pos: nat): CArray
    requires pos < |a|
  {
    a[pos := None]
  }

  /** What `in_cmd` executes is the vector `InputArgv` derives. */
  lemma InCmdEditReadsInputArgv(line: Line)
    requires InOp in line
    ensures var p := IndexOf(line, InOp);
      var a := InCmdEdit(ToCArray(line), p);
      a[|a| - 1] == None && ArgvFrom(a, 0) == InputArgv(line)
  {
    var p := IndexOf(line, InOp);
    var a := InCmdEdit(ToCArray(line), p);
    var argv := InputArgv(line);
    if p + 1 < |line| {
      assert a[|a| - 1] == None;
    }
    forall i | 0 <= i < |argv|
      ensures a[i] == Some(argv[i])
    {
      if i < p {
        assert argv[i] == argv[..p][i] == line[..p][i];
      }
    }
    ArgvFromIsRun(a, 0, argv);
  }

  /** What `out_cmd` executes is `OutputArgv`, and the pointer it opens is `OutputFile`. */
  lemma OutCmdEditReadsOutputArgv(line: Line)
    requires OutOp in line
    ensures var p := IndexOf(line, OutOp);
      var a := Terminate(ToCArray(line), p);
      && a[|a| - 1] == None
      && ArgvFrom(a, 0) == OutputArgv(line)
      && a[p + 1] == OutputFile(line)
  {
    var p := IndexOf(line, OutOp);
    var a := Terminate(ToCArray(line), p);
    ArgvFromIsRun(a, 0, OutputArgv(line));
  }

  /** The two vectors `pipe_cmd` executes are the two sides of `PipeSplit`. */
  lemma PipeCmdEditReadsSides(line: Line)
    requires PipeOp in line
    ensures var p := IndexOf(line, PipeOp);
      var a := Terminate(ToCArray(line), p);
      && a[|a| - 1] == None
      && ArgvFrom(a, 0) == PipeSplit(line).0
      && ArgvFrom(a, p + 1) == PipeSplit(line).1
  {
    var p := IndexOf(line, PipeOp);
    var a := Terminate(ToCArray(line), p);
    var (left, right) := PipeSplit(line);
    assert |left| == p;
    ArgvFromIsRun(a, 0, left);
    forall i | 0 <= i < |right|
      ensures a[p + 1 + i] == Some(right[i])
    {
      assert line[p + 1 + i] == right[i];
    }
    ArgvFromIsRun(a, p + 1, right);
  }
}

=== FILE: classifier.dfy ===
/**
 The token classifier of `mult_cmd`: one scan records which of `<`, `>` and
 `|` occur, then a fixed if/else-if chain picks exactly one shape.
 */
module Classifier {
  import opened Tokens

  datatype Shape = Plain | InputRedirect | OutputRedirect | Pipe

  /** The decision chain: input redirection beats output redirection beats pipe. */
  function ShapeOf(inFlag: bool, outFlag: bool, pipeFlag: bool): Shape
  {
    if inFlag then InputRedirect
    else if outFlag then OutputRedirect
    else if pipeFlag then Pipe
    else Plain
  }

  /** The shape of a line; it depends on nothing but which operators occur in it. */
  function Classify(line: Line): (s: Shape)
    ensures s == InputRedirect <==> InOp in line
    ensures s == OutputRedirect <==> InOp !in line && OutOp in line
    ensures s == Pipe <==> InOp !in line && OutOp !in line && PipeOp in line
    ensures s == Plain <==> InOp !in line && OutOp !in line && PipeOp !in line
  {
    ShapeOf(InOp in line, OutOp in line, PipeOp in line)
  }

  /** The scan loop: each token sets at most one flag, tested in the order `<`, `>`, `|`. */
  method ScanOperators(line: Line) returns (inFlag: bool, outFlag: bool, pipeFlag: bool)
    ensures inFlag <==> InOp in line
    ensures outFlag <==> OutOp in line
    ensures pipeFlag <==> PipeOp in line
  {
    inFlag, outFlag, pipeFlag := false, false, false;
    var i := 0;
    while i < |line|
      invariant 0 <= i <= |line|
      invariant inFlag <==> InOp in line[..i]
      invariant outFlag <==> OutOp in line[..i]
      invariant pipeFlag <==> PipeOp in line[..i]
    {
      assert line[..i + 1] == line[..i] + [line[i]];
      if line[i] == InOp {
        inFlag := true;
      } else if line[i] == OutOp {
        outFlag := true;
      } else if line[i] == PipeOp {
        pipeFlag := true;
      }
      i := i + 1;
    }
    assert line[..i] == line;
  }

  /** Classification as `mult_cmd` performs it: scan once, then branch on the flags. */
  method ClassifyByScan(line: Line) returns (s: Shape)
    ensures s == Classify(line)
  {
    var inFlag, outFlag, pipeFlag := ScanOperators(line);
    s := ShapeOf(inFlag, outFlag, pipeFlag);
  }

  /** Two lines that agree on which operators occur get the same shape. */
  lemma ClassifySeesOnlyOperators(a: Line, b: Line)
    requires InOp in a <==> InOp in b
    requires OutOp in a <==> OutOp in b
    requires PipeOp in a <==> PipeOp in b
    ensures Classify(a) == Classify(b)
  {
  }
}

=== FILE: descriptors.dfy ===
/**
 A process's descriptor table and the calls the handlers make on it: `close`,
 `dup`, `open` and `pipe`. Allocation follows POSIX.1-2017 (IEEE Std 1003.1)
 for `dup` and `open`: a new descriptor is always the lowest-numbered one not
 currently open. `pipe` takes the two lowest free descriptors; the model gives
 the read end the lower one.
 Descriptors are `int` in the calls because C passes -1 after a failed `open`.
 */
module Descriptors {
  import opened Wrappers

  /** What an open descriptor refers to. */
  datatype Obj = Terminal | File(path: string) | PipeRead(chan: nat) | PipeWrite(chan: nat)

  type Table = map<nat, Obj>

  const StdIn: nat := 0
  const StdOut: nat := 1

  predicate IsOpen(t: Table, fd: int) {
    0 <= fd && fd as nat in t
  }

  /** The lowest free descriptor at or above `n`. */
  function LowestFreeFrom(t: Table, n: nat): (r: nat)
    ensures n <= r && r !in t
    ensures forall k: nat :: n <= k < r ==> k in t
    decreases set k | k in t && n <= k
  {
    if n !in t then n
    else
      var above := set k | k in t && n + 1 <= k;
      var atOrAbove := set k | k in t && n <= k;
      assert n in atOrAbove && n !in above && above <= atOrAbove;
      LowestFreeFrom(t, n + 1)
  }

  /** The descriptor the next allocation returns. */
  function LowestFree(t: Table): (r: nat)
    ensures r !in t
    ensures forall k: nat :: k < r ==> k in t
  {
    LowestFreeFrom(t, 0)
  }

  /** `close(fd)`: a descriptor that is not open (EBADF) leaves the table as it was. */
  function Close(t: Table, fd: int): Table
  {
    if IsOpen(t, fd) then t - {fd as nat} else t
  }

  /**
   `dup(fd)`: the lowest free descriptor now refers to what `fd` refers to;
   -1 (EBADF) and no change when `fd` is not open.
   */
  function Dup(t: Table, fd: int): (r: (Table, int))
    ensures !IsOpen(t, fd) ==> r == (t, -1)
    ensures IsOpen(t, fd) ==>
      && 0 <= r.1 && r.1 as nat !in t
      && (forall k: nat :: k < r.1 ==> k in t)
      && r.0.Keys == t.Keys + {r.1 as nat}
      && r.0[r.1 as nat] == t[fd as nat]
      && (forall k :: k in t ==> r.0[k] == t[k])
  {
    if IsOpen(t, fd) then
      var n := LowestFree(t);
      (t[n := t[fd as nat]], n)
    else (t, -1)
  }

  /**
   `open(...)` of `target`, or a failed `open` (None) returning -1. The new
   descriptor is the lowest free one.
   */
  function Open(t: Table, target: Option<Obj>): (r: (Table, int))
    ensures target.None? ==> r == (t, -1)
    ensures target.Some? ==>
      && 0 <= r.1 && r.1 as nat !in t
      && (forall k: nat :: k < r.1 ==> k in t)
      && r.0 == t[r.1 as nat := target.value]
  {
    if target.Some? then
      var n := LowestFree(t);
      (t[n := target.value], n)
    else (t, -1)
  }

  /**
   `pipe(fd)`: a read end at the lowest free descriptor and a write end at the
   next lowest, both on channel `chan`.
   */
  function Pipe(t: Table, chan: nat): (r: (Table, nat, nat))
    ensures r.1 !in t && r.2 !in t && r.1 != r.2
    ensures r.0 == t[r.1 := PipeRead(chan)][r.2 := PipeWrite(chan)]
    ensures forall k: nat :: k < r.1 ==> k in t
    ensures forall k: nat :: k < r.2 && k != r.1 ==> k in t
  {
    var rd := LowestFree(t);
    var t1 := t[rd := PipeRead(chan)];
    var wr := LowestFree(t1);
    forall k: nat | k < wr && k != rd
      ensures k in t
    {
      assert k in t1;
    }
    (t1[wr := PipeWrite(chan)], rd, wr)
  }

  /**
   The idiom `close(slot); dup(fd); close(fd)` of lines 45-47 and 84-86,
   with every return value ignored as the C code ignores it.
   */
  function Redirect(t: Table, slot: nat, fd: int): Table
  {
    var t1 := Close(t, slot);
    var t2 := Dup(t1, fd).0;
    Close(t2, fd)
  }

  /**
   When `slot` and every slot below it are open and `fd` is another open
   descriptor, the idiom rebinds `slot` to `fd`'s object, closes `fd`, and
   leaves every other slot as it was.
   */
  lemma RedirectRebinds(t: Table, slot: nat, fd: int)
    requires slot in t
    requires forall k: nat :: k < slot ==> k in t
    requires IsOpen(t, fd) && fd != slot
    ensures Redirect(t, slot, fd) == t[slot := t[fd as nat]] - {fd as nat}
  {
  }

  /**
   On an arbitrary table, the premise of `RedirectRebinds` that every slot
   below `slot` is open is needed: with a free slot below, `dup` fills the
   lowest hole instead, and `slot` is left closed. The handlers never reach
   this case, because the `open` or `pipe` just before the idiom has already
   taken the lowest free slot (see `OutputLaunchWiring`).
   */
  lemma RedirectWithLowerHoleMisses(t: Table, slot: nat, fd: int, hole: nat)
    requires hole < slot && hole !in t
    requires slot in t
    requires IsOpen(t, fd) && fd != slot
    ensures slot !in Redirect(t, slot, fd)
    ensures LowestFree(t) < slot
    ensures Redirect(t, slot, fd)[LowestFree(t)] == t[fd as nat]
  {
    var n := LowestFree(t);
    var t1 := Close(t, slot);
    assert n <= hole;
    assert n !in t1 && forall k: nat :: k < n ==> k in t1;
    var (t2, m) := Dup(t1, fd);
    assert m == n;
  }

  /** After a failed `open` (fd -1) the idiom only closes `slot`. */
  lemma RedirectFailedOpenClosesSlot(t: Table, slot: nat)
    ensures Redirect(t, slot, -1) == t - {slot}
  {
  }

  /** The slots bound to either end of channel `chan`. */
  function PipeEnds(t: Table, chan: nat): set<nat>
  {
    set k | k in t && (t[k] == PipeRead(chan) || t[k] == PipeWrite(chan))
  }

  /** Lines 124-127: the writing stage. */
  function WriterBranch(t: Table, rd: nat, wr: nat): Table
  {
    var t1 := Close(t, StdOut);
    var t2 := Dup(t1, wr).0;
    var t3 := Close(t2, wr);
    Close(t3, rd)
  }

  /** Lines 133-136: the reading stage. */
  function ReaderBranch(t: Table, rd: nat, wr: nat): Table
  {
    var t1 := Close(t, StdIn);
    var t2 := Dup(t1, rd).0;
    var t3 := Close(t2, wr);
    Close(t3, rd)
  }

  /**
   After `pipe` in a process whose standard input and output are open, the
   writing stage has the write end on standard output, no other end of the
   channel open, and every other slot unchanged.
   */
  lemma WriterBranchWiring(t: Table, chan: nat)
    requires StdIn in t && StdOut in t
    requires PipeEnds(t, chan) == {}
    ensures var (t1, rd, wr) := Pipe(t, chan);
      var w := WriterBranch(t1, rd, wr);
      && w == t[StdOut := PipeWrite(chan)]
      && PipeEnds(w, chan) == {StdOut}
  {
  }

  /**
   After `pipe`, the reading stage has the read end on standard input, no
   other end of the channel open, and every other slot unchanged.
   */
  lemma ReaderBranchWiring(t: Table, chan: nat)
    requires StdIn in t
    requires PipeEnds(t, chan) == {}
    ensures var (t1, rd, wr) := Pipe(t, chan);
      var r := ReaderBranch(t1, rd, wr);
      && r == t[StdIn := PipeRead(chan)]
      && PipeEnds(r, chan) == {StdIn}
  {
  }
}

=== FILE: launch.dfy ===
/**
 Which programs a command replaces its child processes with, and the
 descriptor table each of them inherits across `execvp`. The shell's own
 table is a value here, so no handler can change it.
 */
module Launch {
  import opened Wrappers
  import opened Tokens
  import opened Argv
  import opened Descriptors
  import opened Shell

  /** One `execvp`: the vector and the descriptor table at that moment. */
  datatype Program = Program(argv: Line, fds: Table)

  /**
   What the operating system answers to the calls whose results the code
   does not check: what `in_cmd`'s `open` yields (None: the call fails),
   whether `out_cmd`'s `open` of a named file succeeds, and the channel
   `pipe` creates.
   */
  datatype Os = Os(inSource: Option<Obj>, outOpens: bool, chan: nat)

  /** What `out_cmd`'s `open` yields: nothing for a NULL filename or a refused open. */
  function OutTarget(file: Option<Token>, os: Os): Option<Obj>
  {
    if file.Some? && os.outOpens then Some(File(file.value)) else None
  }

  /** The programs `c` runs, starting from the shell's table `t`. */
  function Launch(c: Command, t: Table, os: Os): (ps: seq<Program>)
    ensures |ps| == (if c.Pipeline? then 2 else 1)
    ensures c.Pipeline? ==> ps[0].argv == c.left && ps[1].argv == c.right
    ensures !c.Pipeline? ==> ps[0].argv == c.argv
    ensures c.Exec? ==> ps[0].fds == t
  {
    match c
    case Exec(argv) => [Program(argv, t)]
    case ExecInput(argv) =>
      var (t1, fd) := Open(t, os.inSource);
      [Program(argv, Redirect(t1, StdIn, fd))]
    case ExecOutput(argv, file) =>
      var (t1, fd) := Open(t, OutTarget(file, os));
      [Program(argv, Redirect(t1, StdOut, fd))]
    case Pipeline(left, right) =>
      var (t1, rd, wr) := Pipe(t, os.chan);
      [Program(left, WriterBranch(t1, rd, wr)), Program(right, ReaderBranch(t1, rd, wr))]
  }

  /** Opening `obj` and redirecting `slot` onto it leaves exactly `slot` rebound. */
  lemma OpenThenRedirect(t: Table, slot: nat, obj: Obj)
    requires slot in t
    requires forall k: nat :: k < slot ==> k in t
    ensures var (t1, fd) := Open(t, Some(obj));
      Redirect(t1, slot, fd) == t[slot := obj]
  {
  }

  /**
   `in_cmd`: the program reads the opened object on standard input; if the
   `open` failed, its standard input is closed. All other slots are the shell's.
   */
  lemma InputLaunchWiring(argv: Line, t: Table, os: Os)
    requires StdIn in t
    ensures os.inSource.Some? ==>
      Launch(ExecInput(argv), t, os) == [Program(argv, t[StdIn := os.inSource.value])]
    ensures os.inSource.None? ==>
      Launch(ExecInput(argv), t, os) == [Program(argv, t - {StdIn})]
  {
    if os.inSource.Some? {
      OpenThenRedirect(t, StdIn, os.inSource.value);
    }
  }

  /**
   `out_cmd`: the program writes to the named file on standard output. When
   the `open` fails, because `>` was the last token (NULL filename) or the
   system refuses the path, its standard output is left closed. All other
   slots are the shell's. This holds even when standard input is closed: the
   `open` then takes slot 0, and `dup` still lands on slot 1.
   */
  lemma OutputLaunchWiring(argv: Line, file: Option<Token>, t: Table, os: Os)
    requires StdOut in t
    ensures file.Some? && os.outOpens ==>
      Launch(ExecOutput(argv, file), t, os) == [Program(argv, t[StdOut := File(file.value)])]
    ensures file.None? || !os.outOpens ==>
      Launch(ExecOutput(argv, file), t, os) == [Program(argv, t - {StdOut})]
  {
    if file.Some? && os.outOpens {
      if StdIn in t {
        OpenThenRedirect(t, StdOut, File(file.value));
      } else {
        var (t1, fd) := Open(t, Some(File(file.value)));
        assert fd == 0;
        RedirectRebinds(t1, StdOut, fd);
        var e := t[StdOut := File(file.value)];
        var r := Redirect(t1, StdOut, fd);
        assert r.Keys == e.Keys;
        assert r == e;
        assert Launch(ExecOutput(argv, file), t, os) == [Program(argv, r)];
      }
    }
  }

  /**
   `in_cmd` with standard input already closed: the `open` takes slot 0, the
   `close(0)` then closes that very file, and `dup` fails. The program runs
   with standard input still closed, whatever was opened.
   */
  lemma InputLaunchWithStdinClosed(argv: Line, t: Table, os: Os)
    requires StdIn !in t
    ensures Launch(ExecInput(argv), t, os) == [Program(argv, t)]
  {
    if os.inSource.Some? {
      var (t1, fd) := Open(t, os.inSource);
      assert fd == 0;
      assert Close(t1, StdIn) == t;
    }
  }

  /**
   `pipe_cmd`: the left program writes into the channel and the right one
   reads from it, and each holds exactly one end of it.
   */
  lemma PipelineLaunchWiring(left: Line, right: Line, t: Table, os: Os)
    requires StdIn in t && StdOut in t
    requires PipeEnds(t, os.chan) == {}
    ensures var ps := Launch(Pipeline(left, right), t, os);
      && ps == [Program(left, t[StdOut := PipeWrite(os.chan)]), Program(right, t[StdIn := PipeRead(os.chan)])]
      && PipeEnds(ps[0].fds, os.chan) == {StdOut}
      && PipeEnds(ps[1].fds, os.chan) == {StdIn}
  {
    WriterBranchWiring(t, os.chan);
    ReaderBranchWiring(t, os.chan);
  }

  /** The example `echo hi > out.txt`: `echo hi` runs with standard output on `out.txt`. */
  lemma EchoIntoFile(t: Table, os: Os)
    requires StdOut in t
    requires os.outOpens
    ensures match Dispatch(["echo", "hi", ">", "out.txt"])
      case Run(c) => Launch(c, t, os) == [Program(["echo", "hi"], t[StdOut := File("out.txt")])]
      case _ => false
  {
    var line: Line := ["echo", "hi", ">", "out.txt"];
    assert InOp !in line;
    assert OutOp in line by { assert line[2] == OutOp; }
    var c := MultCmd(line);
    assert c.argv == ["echo", "hi"] by {
      assert line[..|c.argv| + 1] == c.argv + [OutOp];
      assert line[0] != OutOp && line[1] != OutOp;
    }
    OutputLaunchWiring(c.argv, c.file, t, os);
  }

  /**
   The example `cat < in.txt`: the filename stays an argument, so `cat in.txt`
   runs, with standard input on what `in_cmd`'s `open` yielded, or closed when
   that `open` failed.
   */
  lemma CatFromFile(t: Table, os: Os)
    requires StdIn in t
    ensures match Dispatch(["cat", "<", "in.txt"])
      case Run(c) =>
        && (os.inSource.Some? ==>
              Launch(c, t, os) == [Program(["cat", "in.txt"], t[StdIn := os.inSource.value])])
        && (os.inSource.None? ==>
              Launch(c, t, os) == [Program(["cat", "in.txt"], t - {StdIn})])
      case _ => false
  {
    var line: Line := ["cat", "<", "in.txt"];
    assert InOp in line by { assert line[1] == InOp; }
    IndexOfIsFirst(line, InOp, 1);
    assert InputArgv(line) == ["cat", "in.txt"];
    InputLaunchWiring(["cat", "in.txt"], t, os);
  }
}

=== FILE: shell.dfy ===
/**
 The dispatch layer: `main`'s read loop, `process_cmd` and the routing in
 `mult_cmd`, producing for each line what the shell does with it.
 */
module Shell {
  import opened Wrappers
  import opened Tokens
  import opened Classifier
  import opened Argv

  /** A command ready to run, with the vectors and operand its handler derived. */
  datatype Command =
    | Exec(argv: Line)                               // sngl_cmd, and mult_cmd's plain branch
    | ExecInput(argv: Line)                          // in_cmd
    | ExecOutput(argv: Line, file: Option<Token>)    // out_cmd
    | Pipeline(left: Line, right: Line)              // pipe_cmd

  /** What one iteration of the read loop does with a line. */
  datatype Action = Continue | ExitShell(status: int) | Run(cmd: Command)

  predicate HasOperator(line: Line) {
    InOp in line || OutOp in line || PipeOp in line
  }

  /** `mult_cmd`: classify, then hand the line to the matching handler. */
  function MultCmd(line: Line): (c: Command)
    ensures c.Exec? <==> !HasOperator(line)
    ensures c.Exec? ==> c.argv == line
    ensures c.ExecInput? <==> InOp in line
    ensures c.ExecInput? ==>
      var p := IndexOf(line, InOp);
      && c.argv == InputArgv(line)
      && c.argv[..p] == line[..p]
      && |c.argv| <= p + 1
      && (p + 1 < |line| ==> c.argv[p] == line[p + 1])
    ensures c.ExecOutput? <==> InOp !in line && OutOp in line
    ensures c.ExecOutput? ==>
      && |c.argv| < |line| && c.argv + [OutOp] == line[..|c.argv| + 1]
      && OutOp !in c.argv && InOp !in c.argv
      && (c.file.Some? <==> |c.argv| + 1 < |line|)
      && (c.file.Some? ==> c.file.value == line[|c.argv| + 1])
    ensures c.Pipeline? <==> !(InOp in line || OutOp in line) && PipeOp in line
    ensures c.Pipeline? ==>
      && c.left + [PipeOp] + c.right == line
      && !HasOperator(c.left)
      && InOp !in c.right && OutOp !in c.right
  {
    match Classify(line)
    case InputRedirect => ExecInput(InputArgv(line))
    case OutputRedirect =>
      OutputShapeHasNoInputOperator(line);
      var argv := OutputArgv(line);
      assert line[..|argv| + 1] == argv + [OutOp];
      ExecOutput(argv, OutputFile(line))
    case Pipe =>
      PipeSidesHaveNoRedirection(line);
      var (left, right) := PipeSplit(line);
      Pipeline(left, right)
    case Plain => Exec(line)
  }

  /** `process_cmd`: a line of one token runs as a plain command, whatever that token is. */
  function ProcessCmd(line: Line): (c: Command)
    requires |line| >= 1
    ensures |line| == 1 ==> c == Exec(line)
    ensures |line| >= 2 ==> c == MultCmd(line)
  {
    if |line| >= 2 then MultCmd(line) else Exec(line)
  }

  predicate StartsWithExit(line: Line) {
    |line| > 0 && line[0] == ExitWord
  }

  /** One iteration of `main`'s loop for a line the tokenizer returned. */
  function Dispatch(line: Line): (a: Action)
    ensures a == Continue <==> |line| == 0
    ensures a.ExitShell? <==> StartsWithExit(line)
    ensures a.ExitShell? ==> a.status == 0
    ensures a.Run? ==> |line| >= 1 && !StartsWithExit(line) && a.cmd == ProcessCmd(line)
  {
    if |line| == 0 then Continue
    else if line[0] == ExitWord then ExitShell(0)
    else Run(ProcessCmd(line))
  }

  /** `exit` ends the shell with status 0 whatever follows it on the line. */
  lemma ExitIgnoresTrailingTokens(rest: Line)
    ensures Dispatch([ExitWord] + rest) == ExitShell(0)
  {
  }

  /** A lone operator token is run as a program name, not classified. */
  lemma LoneOperatorRunsAsProgram(tok: Token)
    requires tok == InOp || tok == OutOp || tok == PipeOp
    ensures Dispatch([tok]) == Run(Exec([tok]))
    ensures MultCmd([tok]) != Exec([tok])
  {
  }

  /** Lines of two or more tokens without operators run as the same plain command as one-token lines do. */
  lemma PlainLinesRunWhole(line: Line)
    requires |line| >= 1 && !StartsWithExit(line) && !HasOperator(line)
    ensures Dispatch(line) == Run(Exec(line))
  {
  }

  /**
   Operators of lower priority are passed to the program as ordinary
   arguments: a `|` before a `>` reaches `out_cmd`'s vector, and a second `|`
   reaches the right side of a pipe.
   */
  lemma LowerOperatorsPassAsArguments()
    ensures MultCmd(["a", "|", "b", ">", "f"]) == ExecOutput(["a", "|", "b"], Some("f"))
    ensures MultCmd(["a", "|", "b", "|", "c"]) == Pipeline(["a"], ["b", "|", "c"])
  {
  }

  /** What the shell did over a stream of lines: the commands it ran, and its exit status if it exited. */
  datatype Outcome = Outcome(ran: seq<Command>, exit: Option<int>)

  /** The commands of the non-empty lines of a stream that holds no `exit` line. */
  function CommandsOf(lines: seq<Line>): seq<Command>
  {
    if lines == [] then []
    else if |lines[0]| == 0 || StartsWithExit(lines[0]) then CommandsOf(lines[1..])
    else [ProcessCmd(lines[0])] + CommandsOf(lines[1..])
  }

  /**
   `main`'s `while(1)` loop over the lines the tokenizer returns: empty lines
   are skipped, the first `exit` line stops the shell, every other line runs.
   */
  function Session(lines: seq<Line>): (o: Outcome)
    ensures o.exit.Some? <==> exists i :: 0 <= i < |lines| && StartsWithExit(lines[i])
    ensures o.exit.Some? ==> o.exit.value == 0
    ensures |o.ran| <= |lines|
  {
    if lines == [] then Outcome([], None)
    else
      var rest := Session(lines[1..]);
      assert forall i :: 0 <= i < |lines[1..]| ==> lines[1..][i] == lines[i + 1];
      match Dispatch(lines[0])
      case Continue => rest
      case ExitShell(status) => Outcome([], Some(status))
      case Run(c) => Outcome([c] + rest.ran, rest.exit)
  }

  /**
   Lines before the first `exit` run in order; the `exit` line ends the shell
   with status 0 and nothing after it is read.
   */
  lemma {:induction false} SessionStopsAtExit(before: seq<Line>, line: Line, after: seq<Line>)
    requires forall i :: 0 <= i < |before| ==> !StartsWithExit(before[i])
    requires StartsWithExit(line)
    ensures Session(before + [line] + after) == Outcome(CommandsOf(before), Some(0))
  {
    if before == [] {
      assert before + [line] + after == [line] + after;
    } else {
      assert (before + [line] + after)[1..] == before[1..] + [line] + after;
      SessionStopsAtExit(before[1..], line, after);
    }
  }

  /** A stream with no `exit` line runs the commands of all its non-empty lines and never exits. */
  lemma {:induction false} SessionWithoutExit(lines: seq<Line>)
    requires forall i :: 0 <= i < |lines| ==> !StartsWithExit(lines[i])
    ensures Session(lines) == Outcome(CommandsOf(lines), None)
  {
    if lines != [] {
      SessionWithoutExit(lines[1..]);
    }
  }
}

=== FILE: tokens.dfy ===
/**
 A command line as the external tokenizer hands it to the shell: an ordered
 sequence of whitespace-separated tokens. The operators `<`, `>` and `|` are
 significant only as whole tokens.
 */
module Tokens {

  type Token = string
  type Line = seq<Token>

  const InOp: Token := "<"
  const OutOp: Token := ">"
  const PipeOp: Token := "|"
  const ExitWord: Token := "exit"

  /** Position of the first occurrence of `op` in `line`. */
  function IndexOf(line: Line, op: Token): (p: nat)
    requires op in line
    ensures p < |line| && line[p] == op
    ensures op !in line[..p]
  {
    if line[0] == op then 0
    else
      assert line == [line[0]] + line[1..];
      var q := IndexOf(line[1..], op);
      assert line[..q + 1] == [line[0]] + line[1..][..q];
      q + 1
  }

  /** Any occurrence of `op` with no earlier occurrence is the one `IndexOf` finds. */
  lemma IndexOfIsFirst(line: Line, op: Token, p: nat)
    requires p < |line| && line[p] == op
    requires op !in line[..p]
    ensures op in line
    ensures IndexOf(line, op) == p
  {
  }

  /**
   The position search shared by the three handlers: step forward until the
   token equals `op`. It is reached only after the classifier saw `op`, so it
   stops inside the line, at the first occurrence.
   */
  method FindOperator(line: Line, op: Token) returns (pos: nat)
    requires op in line
    ensures pos < |line| && line[pos] == op
    ensures forall j :: 0 <= j < pos ==> line[j] != op
    ensures pos == IndexOf(line, op)
  {
    pos := 0;
    while line[pos] != op
      invariant pos < |line|
      invariant forall j :: 0 <= j < pos ==> line[j] != op
      invariant op in line[pos..]
      decreases |line| - pos
    {
      assert line[pos..] == [line[pos]] + line[pos + 1..];
      pos := pos + 1;
    }
    assert forall j :: 0 <= j < pos ==> line[..pos][j] == line[j];
    IndexOfIsFirst(line, op, pos);
  }
}

=== FILE: wrappers.dfy ===
/** The optional value used wherever the C code reads a NULL sentinel. */
module Wrappers {

  /** `None` stands for a NULL pointer (or a failed call); `Some` for a real value. */
  datatype Option<+T> = None | Some(value: T)
}
